=== FILE: README.md ===
# Report query pipeline — a Dafny model

This project models the data core of a small report-query service. The service loads a
production report (an Excel sheet) and answers aggregate queries about it. Before answering,
it does two things to every row:

- it tags the row `LGD` or `Mined` from its sales-order description;
- it rewrites the row's KT code through a lookup table.

A query names a metric column, an order type, a list of attribute columns and an optional
`top_n`. The answer has one record per distinct (attributes…, delivery period) key among the
rows of that order type. Each record carries the metric summed over its group. Records are
ordered by delivery-period category, then by total, largest first. With `top_n`, each period
bucket keeps only its first `top_n` records.

The category order puts `Overdue` and `Due` first. Every other observed label follows, sorted
by its leading week number, largest first. The HTTP endpoint validates a request against three
allow-lists before any work is done; that validation is modelled too.

Modules, one per concern:

- `Outcomes`: `Option` and `Result`.
- `Seqs`: search, list-comprehension filters, `unique()`.
- `Frames`: cells, rows, tables, column names, errors.
- `Text`: `str.split()[0]`, `str.isdigit()`, `int()`, and substring search.
- `Sorting`: a stable insertion sort by a two-level integer rank.
- `Classify`: order-type tagging and the KT rewrite.
- `Periods`: the category order.
- `Aggregate`: group-by-sum.
- `Ranking`: the sort of the groups and the per-bucket truncation.
- `Query`: `process_query` itself.
- `Requests`: endpoint validation.

A table is a list of column names and a list of rows. Each row maps column names to cells. A
cell is text, a whole number, or empty (pandas' NaN). Every pandas `KeyError` on a missing
column becomes a `MissingColumn` failure; it is not made a precondition. Python's exceptions in
the modelled code are likewise `Failure` values:

- `ValueError` for missing attributes;
- `IndexError` from splitting a blank label;
- `ValueError` for a null category, or for a column pandas would insert twice;
- `ValueError` from the sort when an attribute called `total` sits next to the renamed metric
  column, so the grouped result has two `total` columns (processing.py:64-68).

Notes on the code's behaviour:

- `Overdue` and `Due` always open the order, even when the data has neither.
- A label whose first word is not a number gets key 0. It therefore ties with labels such as
  "0 Weeks" instead of always sorting last.
- A blank text label makes the query fail.

## Model

| member | source | states |
|---|---|---|
| `Seqs.Absent` | processing.py:51 | The "missing" list: exactly the requested names that are not columns, each as often as requested; empty exactly when every name is a column |
| `Seqs.AbsentAppend` | processing.py:51 | The missing names of a concatenated request are those of the first part followed by those of the second, so names are reported in the order they were requested |
| `Seqs.Distinct` | processing.py:32 | `unique()`: no label twice, exactly the observed labels, listed in order of first appearance |
| `Text.FirstWord` | processing.py:33 | `x.split()[0]`: absent exactly when the text is only separators (where Python raises); otherwise a non-empty word without separators |
| `Text.FirstWordOf` | processing.py:33 | Separators, then a word, then nothing or a separator: that word is what `split()[0]` returns |
| `Text.FirstWordSplit` | processing.py:33 | Every text that is not only separators has that shape, so with `FirstWordOf` the first word of any text is determined |
| `Text.DecimalRoundTrip` | processing.py:33 | `int()` of the decimal digits of n gives back n |
| `Text.Contains` | processing.py:22 | `'LGD' in x` holds exactly when the pattern occurs at some position of the text |
| `Sorting.SortBy` | processing.py:31-35 | The sort returns a permutation of its input with ranks non-decreasing |
| `Sorting.SortByTagOrdered` | processing.py:31-35 | The sort is stable: elements with equal ranks keep their relative order |
| `Sorting.SortByNoDuplicates` | processing.py:31-36 | Sorting distinct labels yields distinct labels |
| `Classify.OrderTypeOf` | processing.py:21-23 | A row is `LGD` exactly when its description is text containing "LGD"; anything else, non-text included, is `Mined` |
| `Classify.ClassifyOrderType` | processing.py:20-24 | Each row gains the order type of its description. Row count and every other cell are unchanged. The column is appended, or overwritten if present. A sheet without a description column is refused |
| `Classify.OrderTypesReached` | processing.py:22 | Both labels are produced, for example: text with "LGD" gives `LGD`, while plain text, an empty cell and a number each give `Mined` (the general rule is `Classify.OrderTypeOf`'s contract) |
| `Classify.ReclassifyKt` | processing.py:26-28 | Each KT code is replaced by its mapping entry when that entry exists and is not empty, and kept otherwise. Columns, row count and other cells are unchanged. A sheet without a KT column is refused |
| `Classify.ShippedMappingIsIdentity` | processing.py:9-12 | With the shipped empty `KT_MAPPING` the rewrite returns the table unchanged |
| `Periods.LeadingNumber` | processing.py:33 | The sort key is undefined (Python raises) exactly for blank text. Non-text labels get 0 |
| `Periods.LeadingNumberOf` | processing.py:33 | For any non-blank text label: the key is `int()` of its first word when that word is all digits, and 0 otherwise ("5x Weeks" gives 0, " 5 Weeks" and "05 Weeks" give 5) |
| `Periods.NumberedLabelKey` | processing.py:33 | A label that starts with the decimal form of n followed by a separator or the end, like "5 Weeks", has key n |
| `Periods.WordLabelKey` | processing.py:33 | A label whose first character is neither a separator nor a digit has key 0 |
| `Periods.WeekLabels` | processing.py:32 | The labels to sort are the distinct observed labels other than `Overdue`/`Due`, in first-appearance order |
| `Periods.SortedWeeks` | processing.py:31-35 | Those labels, each exactly once, with week keys non-increasing; equal keys keep first-appearance order |
| `Periods.PrefixedNoDuplicates` | processing.py:36 | Putting `Overdue`, `Due` in front of the sorted week labels repeats no label |
| `Periods.CategoryOrder` | processing.py:30-42 | Fails exactly when a label is blank text (first) or an empty cell. On success: starts with exactly `Overdue`, `Due`; repeats no label; contains every observed label; after the prefix, holds exactly the observed non-fixed labels; keys non-increasing; ties in first-appearance order |
| `Periods.PositionRespectsPrecedence` | processing.py:36-41 | In any order shaped like the category order (`Overdue`, `Due`, then week labels by descending key), a label placed no later than another precedes it: `Overdue` before all, then `Due`, then larger week keys first |
| `Aggregate.EligibleKeysExact` | processing.py:56-61 | A key is among the eligible keys exactly when some row of the requested order type with no empty key cell has that key |
| `Aggregate.EligibleKeysComplete` | processing.py:61 | Grouping never sees a key with an empty cell (pandas drops such rows) |
| `Aggregate.GroupSum` | processing.py:56-65 | One group per distinct key of the eligible rows and no other, no key twice; each group's total is the metric summed over exactly the eligible rows with that key |
| `Ranking.KeepPerBucket` | processing.py:70-71 | `groupby(period).head(n)`: each bucket of the result is the first n groups of that bucket of the input, or all of them if fewer; nothing is added |
| `Ranking.KeepPerBucketBound` | processing.py:71 | Every bucket of a truncated result holds at most n groups |
| `Ranking.KeepPerBucketSorted` | processing.py:68-71 | Truncation keeps the ranking order |
| `Ranking.BucketTotalsDescending` | processing.py:68 | Within one period bucket of the ranked groups, totals never increase |
| `Ranking.DroppedGroupIsSmaller` | processing.py:68-71 | A group that truncation drops lost to exactly n groups of its own bucket, each with a total at least as large |
| `Query.Repeated` | processing.py:58-65 | Reports a name that occurs twice among the grouped result's columns, and reports nothing exactly when every name is distinct |
| `Query.RankedFromSorted` | processing.py:67-68 | Sorting by (category position, total descending) yields periods in category order, contiguous buckets, and totals descending within a bucket |
| `Query.RankGroups` | processing.py:67-71 | The ranked result keeps distinct keys and only input groups. Without `top_n` it drops no group. With `top_n`, each bucket holds at most `top_n`, and a dropped group's bucket is full of groups at least as large |
| `Query.GroupPeriods` | processing.py:58-67 | The labels the category order is built from are never empty; one is blank exactly when an eligible row's period is blank |
| `Query.ResultOfGroups` | processing.py:56-71 | Every result record is an eligible key carrying its exact sum. Without `top_n` every eligible key appears; a key missing under `top_n` is outranked by a full bucket |
| `Query.ProcessQuery` | processing.py:44-73 | Whenever any attribute is not a column, refuses before anything else, listing exactly the missing attributes in request order. A missing read column is named. Otherwise it succeeds exactly when no column repeats, no eligible period is blank, and no attribute is called `total` beside another metric. When the columns are ready and no period is blank, a `total` attribute fails with a clash on `total`. The blank-label error comes only from ready columns with a blank eligible period, never from a repeated column. On success: distinct keys, exact per-key sums, ranked by period then total, nothing dropped without `top_n`, and with `top_n` at most that many per bucket, with only smaller groups dropped |
| `Query.ProcessQueryErrorOrder` | processing.py:56-68 | When all attributes exist, an absent column is reported in source order: the order-type column (filter), then the period column, then the metric (grouping). With every column present, a repeated column fails with a column clash (the index reset) before any label is read. With every column ready, a blank eligible period fails with the blank-label error, ahead of the `total` clash at the sort |
| `Query.TotalAttributeRefused` | processing.py:58-68 | An attribute called `total` with metric `M` is refused with a clash on `total`, even on a sheet without rows |
| `Requests.Validate` | main.py:26-34 | Rejects with 400 in source order, the first failing check deciding: metric not allowed; order type not allowed; empty attributes; attributes outside the allow-list, reporting exactly the offending ones as the missing-name list of `Seqs.Absent`, in request order and with multiplicity. Accepts exactly when all four checks pass |
| `Requests.OrderTypesMatchClassifier` | main.py:13 | The accepted order types are exactly the two labels the classifier can produce |
| `Requests.AcceptedColumnsAreApart` | main.py:11-12 | An accepted request names neither the metric nor the period column among its attributes |

## Left out

- Loading the workbook (`load_excel_from_bytes`) is opaque spreadsheet parsing. The model starts from an already materialised table.
- Fetching from the file store (`fetch_file_from_box`) is left out: it reads environment variables and makes network calls.
- The endpoint's fetch/parse error mapping and logging (main.py:36-62) are plumbing.
- The endpoint passes three arguments to the two-parameter fetch function (main.py:41). This is part of that plumbing and is not modelled.
- The Flask app and the OAuth token script are credential and routing code.
- The `/health` route is left out.
- Query.ProcessQuery: the contract does not fix the order of groups with equal (period, total). pandas' `groupby` sorts group keys by value. The model keeps groups in first-appearance order, because ordering mixed-type pandas values is not modelled. The same choice decides the relative order of week labels with equal keys in the category built inside a query.
- Query.ProcessQuery: requires the metric column to hold numbers or empty cells. pandas would concatenate text, and that is not modelled. Float metrics are modelled as whole numbers.
- Query.ProcessQuery: takes `top_n` as a natural. A negative `head(n)`, which drops the last rows of each bucket, is not modelled.
- Query.ProcessQuery: a `ColumnClash` names one repeated column. Which duplicate pandas names first, and whether the clash is raised by `groupby` or by `reset_index`, is not pinned down; the model checks clashes after the missing-column checks.
- The category order is returned as a sequence. The `Categorical` column pandas builds from it is not modelled; every value of that column is in the order, so no value becomes NaN.
- Only ASCII digits count as digits. Python's `isdigit` also accepts other Unicode digits, and `int()` accepts some of them. Separators, though, are Python's full `str.split()` set.
- Duplicate column names in a sheet are not modelled: a table's columns are distinct.
- The output record layout of `to_dict(orient='records')` is modelled as a key (attribute cells, period) plus a total, not as a dictionary.

=== FILE: aggregate.dfy ===
/**
 * Group-by-sum over the report rows (processing.py:56-65).
 */
module Aggregate {
  import opened Frames
  import opened Seqs

  /** A group key: the requested attribute cells in request order, then the delivery period. */
  datatype Key = Key(attrs: seq<Value>, period: Value)

  /** One output record: a group key and the metric summed over the group. */
  datatype Group = Group(key: Key, total: int)

  /** The row has every cell the query reads, and its metric cell is a number or empty. */
  predicate HasCells(row: Row, attrs: seq<string>, metric: string) {
    && (forall a :: a in attrs ==> a in row)
    && PERIOD_COLUMN in row
    && ORDER_TYPE_COLUMN in row
    && metric in row && !row[metric].Text?
  }

  ghost predicate AllHaveCells(rows: seq<Row>, attrs: seq<string>, metric: string) {
    forall i :: 0 <= i < |rows| ==> HasCells(rows[i], attrs, metric)
  }

  /** The group key of a row. */
  function KeyOf(row: Row, attrs: seq<string>): (k: Key)
    requires (forall a :: a in attrs ==> a in row) && PERIOD_COLUMN in row
  {
    Key(seq(|attrs|, i requires 0 <= i < |attrs| => row[attrs[i]]), row[PERIOD_COLUMN])
  }

  /** pandas' groupby leaves out rows whose key has an empty cell. */
  predicate Complete(k: Key) {
    Missing !in k.attrs && k.period != Missing
  }

  /** The row is counted by a query for this order type: it has that type and a complete key. */
  predicate Eligible(row: Row, orderType: string, attrs: seq<string>, metric: string)
    requires HasCells(row, attrs, metric)
  {
    row[ORDER_TYPE_COLUMN] == Text(orderType) && Complete(KeyOf(row, attrs))
  }

  /** The metric of a row: its number, or 0 for an empty cell (pandas' sum skips NaN). */
  function MetricOf(row: Row, metric: string): (m: int)
    requires metric in row
  {
    match row[metric]
    case Num(n) => n
    case _ => 0
  }

  /** Reference total: the metric summed over the eligible rows whose key is k. */
  function SumFor(rows: seq<Row>, orderType: string, attrs: seq<string>, metric: string, k: Key): (total: int)
    requires AllHaveCells(rows, attrs, metric)
  {
    if |rows| == 0 then 0
    else
      var row := rows[|rows| - 1];
      SumFor(rows[..|rows| - 1], orderType, attrs, metric, k)
      + (if Eligible(row, orderType, attrs, metric) && KeyOf(row, attrs) == k then MetricOf(row, metric) else 0)
  }

  /** The keys of the groups, in order. */
  function Keys(gs: seq<Group>): (ks: seq<Key>)
  {
    seq(|gs|, i requires 0 <= i < |gs| => gs[i].key)
  }

  /** The keys of the eligible rows, in row order, with repetitions. */
  function EligibleKeys(rows: seq<Row>, orderType: string, attrs: seq<string>, metric: string): (keys: seq<Key>)
    requires AllHaveCells(rows, attrs, metric)
  {
    if |rows| == 0 then []
    else
      var row := rows[|rows| - 1];
      EligibleKeys(rows[..|rows| - 1], orderType, attrs, metric)
      + (if Eligible(row, orderType, attrs, metric) then [KeyOf(row, attrs)] else [])
  }

  /** The key of every eligible row is among the eligible keys, and only those are. */
  lemma {:induction false} EligibleKeysExact(rows: seq<Row>, orderType: string, attrs: seq<string>, metric: string, k: Key)
    requires AllHaveCells(rows, attrs, metric)
    ensures k in EligibleKeys(rows, orderType, attrs, metric) <==>
              exists i :: 0 <= i < |rows| && Eligible(rows[i], orderType, attrs, metric) && KeyOf(rows[i], attrs) == k
  {
    if |rows| > 0 {
      var p := rows[..|rows| - 1];
      EligibleKeysExact(p, orderType, attrs, metric, k);
      if exists i :: 0 <= i < |rows| && Eligible(rows[i], orderType, attrs, metric) && KeyOf(rows[i], attrs) == k {
        var i :| 0 <= i < |rows| && Eligible(rows[i], orderType, attrs, metric) && KeyOf(rows[i], attrs) == k;
        if i < |p| {
          assert p[i] == rows[i];
        }
      }
      if exists i :: 0 <= i < |p| && Eligible(p[i], orderType, attrs, metric) && KeyOf(p[i], attrs) == k {
        var i :| 0 <= i < |p| && Eligible(p[i], orderType, attrs, metric) && KeyOf(p[i], attrs) == k;
        assert p[i] == rows[i];
      }
    }
  }

  /** Eligible keys have no empty cell. */
  lemma {:induction false} EligibleKeysComplete(rows: seq<Row>, orderType: string, attrs: seq<string>, metric: string)
    requires AllHaveCells(rows, attrs, metric)
    ensures forall k :: k in EligibleKeys(rows, orderType, attrs, metric) ==> Complete(k)
  {
    if |rows| > 0 {
      EligibleKeysComplete(rows[..|rows| - 1], orderType, attrs, metric);
    }
  }

  /** No eligible row has key k, so its reference total is 0. */
  lemma {:induction false} SumForAbsent(rows: seq<Row>, orderType: string, attrs: seq<string>, metric: string, k: Key)
    requires AllHaveCells(rows, attrs, metric)
    requires k !in EligibleKeys(rows, orderType, attrs, metric)
    ensures SumFor(rows, orderType, attrs, metric, k) == 0
  {
    if |rows| > 0 {
      SumForAbsent(rows[..|rows| - 1], orderType, attrs, metric, k);
    }
  }

  /** gs is the grouping of rows: exactly one group per eligible key, holding its reference total. */
  ghost predicate GroupsOf(gs: seq<Group>, rows: seq<Row>, orderType: string, attrs: seq<string>, metric: string)
    requires AllHaveCells(rows, attrs, metric)
  {
    && NoDuplicates(Keys(gs))
    && (forall k :: k in Keys(gs) <==> k in EligibleKeys(rows, orderType, attrs, metric))
    && (forall i :: 0 <= i < |gs| ==> gs[i].total == SumFor(rows, orderType, attrs, metric, gs[i].key))
  }

  /** Adds m to the group with key k, or appends a new group for k. */
  function AddTo(gs: seq<Group>, k: Key, m: int): (r: seq<Group>) {
    var i := IndexOf(Keys(gs), k);
    if i < |gs| then gs[i := Group(k, gs[i].total + m)] else gs + [Group(k, m)]
  }

  lemma AddToExisting(gs: seq<Group>, rows: seq<Row>, orderType: string, attrs: seq<string>, metric: string)
    requires |rows| > 0 && AllHaveCells(rows, attrs, metric)
    requires GroupsOf(gs, rows[..|rows| - 1], orderType, attrs, metric)
    requires Eligible(rows[|rows| - 1], orderType, attrs, metric)
    requires KeyOf(rows[|rows| - 1], attrs) in Keys(gs)
    ensures GroupsOf(AddTo(gs, KeyOf(rows[|rows| - 1], attrs), MetricOf(rows[|rows| - 1], metric)), rows, orderType, attrs, metric)
  {
    var row := rows[|rows| - 1];
    var k := KeyOf(row, attrs);
    var j := IndexOf(Keys(gs), k);
    var r := AddTo(gs, k, MetricOf(row, metric));
    assert Keys(r) == Keys(gs);
    forall n | 0 <= n < |r|
      ensures r[n].total == SumFor(rows, orderType, attrs, metric, r[n].key)
    {
      if n != j {
        assert Keys(gs)[n] != Keys(gs)[j];
      }
    }
  }

  lemma AddToNew(gs: seq<Group>, rows: seq<Row>, orderType: string, attrs: seq<string>, metric: string)
    requires |rows| > 0 && AllHaveCells(rows, attrs, metric)
    requires GroupsOf(gs, rows[..|rows| - 1], orderType, attrs, metric)
    requires Eligible(rows[|rows| - 1], orderType, attrs, metric)
    requires KeyOf(rows[|rows| - 1], attrs) !in Keys(gs)
    ensures GroupsOf(AddTo(gs, KeyOf(rows[|rows| - 1], attrs), MetricOf(rows[|rows| - 1], metric)), rows, orderType, attrs, metric)
  {
    var p := rows[..|rows| - 1];
    var row := rows[|rows| - 1];
    var k := KeyOf(row, attrs);
    var r := AddTo(gs, k, MetricOf(row, metric));
    assert Keys(r) == Keys(gs) + [k];
    SumForAbsent(p, orderType, attrs, metric, k);
    forall n | 0 <= n < |r|
      ensures r[n].total == SumFor(rows, orderType, attrs, metric, r[n].key)
    {
      if n < |gs| {
        assert r[n] == gs[n];
        assert Keys(gs)[n] != k;
      }
    }
  }

  lemma SkipRow(gs: seq<Group>, rows: seq<Row>, orderType: string, attrs: seq<string>, metric: string)
    requires |rows| > 0 && AllHaveCells(rows, attrs, metric)
    requires GroupsOf(gs, rows[..|rows| - 1], orderType, attrs, metric)
    requires !Eligible(rows[|rows| - 1], orderType, attrs, metric)
    ensures GroupsOf(gs, rows, orderType, attrs, metric)
  {
  }

  /**
   * The groups of the eligible rows in order of first appearance, each with its summed metric:
   * filtering by order type, groupby over the key columns, then sum.
   */
  function GroupSum(rows: seq<Row>, orderType: string, attrs: seq<string>, metric: string): (gs: seq<Group>)
    requires AllHaveCells(rows, attrs, metric)
    ensures GroupsOf(gs, rows, orderType, attrs, metric)
  {
    if |rows| == 0 then []
    else
      var row := rows[|rows| - 1];
      var gs := GroupSum(rows[..|rows| - 1], orderType, attrs, metric);
      if !Eligible(row, orderType, attrs, metric) then
        SkipRow(gs, rows, orderType, attrs, metric);
        gs
      else if KeyOf(row, attrs) in Keys(gs) then
        AddToExisting(gs, rows, orderType, attrs, metric);
        AddTo(gs, KeyOf(row, attrs), MetricOf(row, metric))
      else
        AddToNew(gs, rows, orderType, attrs, metric);
        AddTo(gs, KeyOf(row, attrs), MetricOf(row, metric))
  }
}

=== FILE: classify.dfy ===
/**
 * The two row transforms the service applies to a loaded report before answering a query:
 * tagging each row with its order type, and rewriting KT codes through a lookup table.
 */
module Classify {
  import opened Outcomes
  import opened Frames
  import Text

  /** Order type of rows whose description mentions lab-grown diamonds. */
  const LGD := "LGD"
  /** Order type of every other row. */
  const MINED := "Mined"

  /** The KT rewrite table as shipped: no entries. */
  const KT_MAPPING: map<Value, Value> := map[]

  /** The order type of a row with the given description cell. */
  function OrderTypeOf(description: Value): (kind: string)
    ensures kind == LGD || kind == MINED
    ensures kind == LGD <==> description.Text? && exists i :: Text.OccursAt(description.s, LGD, i)
  {
    if description.Text? && Text.Contains(description.s, LGD) then LGD else MINED
  }

  /**
   * Adds (or overwrites) the order-type column: every row gets the order type of its
   * description; a report without a description column is refused.
   */
  function ClassifyOrderType(t: Table): (r: Result<Table, Error>)
    requires t.Valid()
    ensures r.Failure? <==> DESCRIPTION_COLUMN !in t.columns
    ensures r.Failure? ==> r.error == MissingColumn(DESCRIPTION_COLUMN)
    ensures r.Success? ==> r.value.Valid()
    ensures r.Success? ==>
              r.value.columns == if ORDER_TYPE_COLUMN in t.columns then t.columns else t.columns + [ORDER_TYPE_COLUMN]
    ensures r.Success? ==> |r.value.rows| == |t.rows|
    ensures r.Success? ==>
              forall i :: 0 <= i < |t.rows| ==>
                DESCRIPTION_COLUMN in t.rows[i] &&
                r.value.rows[i][ORDER_TYPE_COLUMN] == Text(OrderTypeOf(t.rows[i][DESCRIPTION_COLUMN]))
    ensures r.Success? ==>
              forall i, c :: 0 <= i < |t.rows| && c in t.rows[i] && c != ORDER_TYPE_COLUMN ==>
                c in r.value.rows[i] && r.value.rows[i][c] == t.rows[i][c]
  {
    if DESCRIPTION_COLUMN !in t.columns then Failure(MissingColumn(DESCRIPTION_COLUMN))
    else
      assert forall i :: 0 <= i < |t.rows| ==> DESCRIPTION_COLUMN in t.rows[i];
      var rows := seq(|t.rows|, i requires 0 <= i < |t.rows| =>
                        t.rows[i][ORDER_TYPE_COLUMN := Text(OrderTypeOf(t.rows[i][DESCRIPTION_COLUMN]))]);
      var columns := if ORDER_TYPE_COLUMN in t.columns then t.columns else t.columns + [ORDER_TYPE_COLUMN];
      var u := Table(columns, rows);
      assert u.ColumnSet() == t.ColumnSet() + {ORDER_TYPE_COLUMN};
      Success(u)
  }

  /** The KT code after remapping: the mapping's entry when it has a non-empty one, else the code itself. */
  function Remap(kt: Value, mapping: map<Value, Value>): (r: Value)
  {
    if kt in mapping && mapping[kt] != Missing then mapping[kt] else kt
  }

  /**
   * Rewrites every KT cell through the mapping; unmapped codes are kept. A report without a
   * KT column is refused.
   */
  function ReclassifyKt(t: Table, mapping: map<Value, Value>): (r: Result<Table, Error>)
    requires t.Valid()
    ensures r.Failure? <==> KT_COLUMN !in t.columns
    ensures r.Failure? ==> r.error == MissingColumn(KT_COLUMN)
    ensures r.Success? ==> r.value.Valid() && r.value.columns == t.columns && |r.value.rows| == |t.rows|
    ensures r.Success? ==>
              forall i :: 0 <= i < |t.rows| ==>
                KT_COLUMN in t.rows[i] && KT_COLUMN in r.value.rows[i] &&
                var kt := t.rows[i][KT_COLUMN];
                && (kt in mapping && mapping[kt] != Missing ==> r.value.rows[i][KT_COLUMN] == mapping[kt])
                && (kt !in mapping || mapping[kt] == Missing ==> r.value.rows[i][KT_COLUMN] == kt)
    ensures r.Success? ==>
              forall i, c :: 0 <= i < |t.rows| && c in t.rows[i] && c != KT_COLUMN ==>
                c in r.value.rows[i] && r.value.rows[i][c] == t.rows[i][c]
  {
    if KT_COLUMN !in t.columns then Failure(MissingColumn(KT_COLUMN))
    else
      assert forall i :: 0 <= i < |t.rows| ==> KT_COLUMN in t.rows[i];
      var rows := seq(|t.rows|, i requires 0 <= i < |t.rows| =>
                        t.rows[i][KT_COLUMN := Remap(t.rows[i][KT_COLUMN], mapping)]);
      Success(Table(t.columns, rows))
  }

  /** With the shipped empty mapping the KT rewrite changes nothing. */
  lemma ShippedMappingIsIdentity(t: Table)
    requires t.Valid() && KT_COLUMN in t.columns
    ensures ReclassifyKt(t, KT_MAPPING) == Success(t)
  {
    var u := ReclassifyKt(t, KT_MAPPING).value;
    assert |u.rows| == |t.rows|;
    forall i | 0 <= i < |t.rows|
      ensures u.rows[i] == t.rows[i]
    {
      assert u.rows[i].Keys == t.rows[i].Keys;
    }
    assert u.rows == t.rows;
  }

  /** Classification has exactly two outcomes, and each is reached. */
  lemma OrderTypesReached()
    ensures OrderTypeOf(Text("LGD")) == LGD
    ensures OrderTypeOf(Text("Natural")) == MINED
    ensures OrderTypeOf(Missing) == MINED && OrderTypeOf(Num(7)) == MINED
  {
    assert Text.OccursAt("LGD", LGD, 0);
    forall i | 0 <= i <= 4
      ensures !Text.OccursAt("Natural", LGD, i)
    {
      assert "Natural"[i] != 'L';
    }
  }
}

=== FILE: frames.dfy ===
/**
 * The loaded report as the pipeline sees it: a table of named columns whose cells are text,
 * whole numbers or empty, and the errors the pipeline can raise.
 */
module Frames {
  import Seqs

  /** One cell of the report: text, a whole number, or an empty cell (pandas NaN). */
  datatype Value = Text(s: string) | Num(n: int) | Missing

  /** A row maps each column name of its table to that row's cell. */
  type Row = map<string, Value>

  /** A loaded sheet: column names in sheet order, then the rows. */
  datatype Table = Table(columns: seq<string>, rows: seq<Row>) {

    /** The column names as a set. */
    function ColumnSet(): set<string> {
      set c | c in columns
    }

    /** Column names are unique and every row has a cell for exactly the table's columns. */
    ghost predicate Valid() {
      && Seqs.NoDuplicates(columns)
      && forall i :: 0 <= i < |rows| ==> rows[i].Keys == ColumnSet()
    }
  }

  /** Column holding the free-text sales-order description. */
  const DESCRIPTION_COLUMN := "SO Description"
  /** Column holding the KT code. */
  const KT_COLUMN := "KT"
  /** Column holding the delivery-period label. */
  const PERIOD_COLUMN := "PPC Delivery Period"
  /** Column added by the order-type classifier. */
  const ORDER_TYPE_COLUMN := "order_type_classified"
  /** Name the summed metric column is given in the grouped result. */
  const TOTAL_COLUMN := "total"

  /** The ways the pipeline stops. */
  datatype Error =
      /** Requested attributes that are not columns, in request order. */
    | MissingAttributes(names: seq<string>)
      /** A column the pipeline reads is absent (pandas KeyError). */
    | MissingColumn(name: string)
      /**
       * A column would occur twice in the grouped result: pandas refuses to insert it, or the
       * sort refuses a column label that is not unique.
       */
    | ColumnClash(name: string)
      /** A delivery-period label of text without any word: its sort key cannot be computed. */
    | BlankPeriodLabel
      /** An empty delivery-period cell would become a category, which pandas refuses. */
    | NullPeriodLabel
}

=== FILE: outcomes.dfy ===
/** Optional values and success-or-failure results used throughout the model. */
module Outcomes {

  /** A value that may be absent. */
  datatype Option<+T> = None | Some(value: T)

  /** Either a computed value or the error that stopped the computation. */
  datatype Result<+T, +E> = Success(value: T) | Failure(error: E)
}

=== FILE: periods.dfy ===
/**
 * The delivery-period category order (processing.py:30-42): the fixed labels "Overdue" and
 * "Due" first, then every other observed label, by leading week number, largest first.
 */
module Periods {
  import opened Outcomes
  import opened Frames
  import opened Seqs
  import opened Sorting
  import Text

  const OVERDUE: Value := Text("Overdue")
  const DUE: Value := Text("Due")
  /** The labels that always open the category order, whether or not the data has them. */
  const PPC_ORDER: seq<Value> := [OVERDUE, DUE]

  /** Every label other than the two fixed ones is ordered by its week number. */
  predicate IsWeekLabel(v: Value) {
    v != OVERDUE && v != DUE
  }

  /** Text without any word: splitting it yields nothing, so its sort key cannot be taken. */
  predicate IsBlank(v: Value) {
    v.Text? && Text.AllSpace(v.s)
  }

  /**
   * The sort key of a label: the value of its first word when that word is all digits, 0 for
   * any other text and for non-text cells, None for blank text (where Python raises).
   */
  function LeadingNumber(v: Value): (k: Option<nat>)
    ensures k.None? <==> IsBlank(v)
    ensures !v.Text? ==> k == Some(0)
  {
    if !v.Text? then Some(0)
    else match Text.FirstWord(v.s)
      case None => None
      case Some(w) => if Text.IsDigits(w) then Some(Text.DecimalValue(w)) else Some(0)
  }

  /** "5 Weeks" has key 5: a label opening with the decimal form of n has key n. */
  lemma {:induction false} NumberedLabelKey(n: nat, rest: string)
    requires |rest| == 0 || Text.IsSpace(rest[0])
    ensures LeadingNumber(Text(Text.Decimal(n) + rest)) == Some(n)
  {
    var d := Text.Decimal(n);
    assert Text.IsWord(d) by {
      forall k | 0 <= k < |d|
        ensures !Text.IsSpace(d[k])
      {
        assert Text.IsDigit(d[k]);
      }
    }
    assert "" + d + rest == d + rest;
    LeadingNumberOf("", d, rest);
    Text.DecimalRoundTrip(n);
  }

  /**
   * The key of any label that is not blank: its first word (after any separators) read as a
   * number when it is all digits, 0 otherwise.
   */
  lemma {:induction false} LeadingNumberOf(sp: string, word: string, rest: string)
    requires Text.AllSpace(sp) && Text.IsWord(word)
    requires |rest| == 0 || Text.IsSpace(rest[0])
    ensures LeadingNumber(Text(sp + word + rest)) ==
              Some(if Text.IsDigits(word) then Text.DecimalValue(word) else 0)
  {
    Text.FirstWordOf(sp, word, rest);
  }

  /** A label whose first character is neither a separator nor a digit has key 0. */
  lemma WordLabelKey(s: string)
    requires |s| > 0 && !Text.IsSpace(s[0]) && !Text.IsDigit(s[0])
    ensures LeadingNumber(Text(s)) == Some(0)
  {
    assert Text.LeadingSpaces(s) == 0;
    assert Text.WordLength(s) > 0;
  }

  /** The key used for ordering; blank labels never reach the sort. */
  function WeekKey(v: Value): (key: nat) {
    match LeadingNumber(v)
    case Some(n) => n
    case None => 0
  }

  /** Ascending rank = descending week key. */
  function WeekRank(v: Value): (rank: Rank) {
    Rank(-(WeekKey(v) as int), 0)
  }

  /** The distinct observed labels other than the fixed ones, in order of first appearance. */
  function WeekLabels(labels: seq<Value>): (w: seq<Value>)
    ensures NoDuplicates(w)
    ensures forall v :: v in w <==> v in labels && IsWeekLabel(v)
    ensures forall i, j :: 0 <= i < j < |w| ==> IndexOf(labels, w[i]) < IndexOf(labels, w[j])
  {
    var d := Distinct(labels);
    FilterNoDuplicates(d, IsWeekLabel);
    FilterKeepsIncreasing(d, IsWeekLabel, v => IndexOf(labels, v));
    Filter(d, IsWeekLabel)
  }

  /** Week keys never increase along s. */
  ghost predicate KeysDescending(s: seq<Value>) {
    forall i, j :: 0 <= i < j < |s| ==> WeekKey(s[i]) >= WeekKey(s[j])
  }

  /** Week keys never increase along s, and equal keys keep their first-appearance order in labels. */
  ghost predicate DescendingStable(s: seq<Value>, labels: seq<Value>) {
    && KeysDescending(s)
    && (forall i, j :: 0 <= i < j < |s| && WeekKey(s[i]) == WeekKey(s[j]) ==>
          IndexOf(labels, s[i]) < IndexOf(labels, s[j]))
  }

  /** The week labels sorted by key, largest first, stably. */
  function SortedWeeks(labels: seq<Value>): (s: seq<Value>)
    ensures NoDuplicates(s)
    ensures forall v :: v in s <==> v in labels && IsWeekLabel(v)
    ensures DescendingStable(s, labels)
  {
    var weeks := WeekLabels(labels);
    SortByNoDuplicates(weeks, WeekRank);
    SortByTagOrdered(weeks, WeekRank, v => IndexOf(labels, v));
    var sorted := SortBy(weeks, WeekRank);
    assert forall v :: v in sorted <==> v in weeks by {
      forall v
        ensures v in sorted <==> v in weeks
      {
        assert v in sorted <==> v in multiset(sorted);
      }
    }
    sorted
  }

  /** Prefixing the fixed labels to distinct week labels gives a sequence without duplicates. */
  lemma PrefixedNoDuplicates(s: seq<Value>)
    requires NoDuplicates(s) && forall v :: v in s ==> IsWeekLabel(v)
    ensures NoDuplicates(PPC_ORDER + s)
  {
    var order := PPC_ORDER + s;
    forall i, j | 0 <= i < j < |order|
      ensures order[i] != order[j]
    {
      if i >= 2 {
        assert order[i] == s[i - 2] && order[j] == s[j - 2];
      } else if j >= 2 {
        assert order[j] == s[j - 2] && s[j - 2] in s;
      }
    }
  }

  /** The shape of a category order: the fixed labels, then week labels with keys never increasing. */
  ghost predicate CategoryLayout(order: seq<Value>) {
    && |order| >= 2 && order[..2] == PPC_ORDER
    && (forall v :: v in order[2..] ==> IsWeekLabel(v))
    && KeysDescending(order[2..])
  }

  /**
   * The category order built from the observed labels. Blank text fails while the sort keys
   * are computed; an empty cell fails when it would become a category. Neither can equal a
   * fixed label, so both are always among the labels being sorted.
   */
  function CategoryOrder(labels: seq<Value>): (r: Result<seq<Value>, Error>)
    ensures r.Failure? <==> (exists i :: 0 <= i < |labels| && IsBlank(labels[i])) || Missing in labels
    ensures r.Failure? ==>
              r.error == if exists i :: 0 <= i < |labels| && IsBlank(labels[i]) then BlankPeriodLabel else NullPeriodLabel
    ensures r.Success? ==> |r.value| >= 2 && r.value[..2] == PPC_ORDER
    ensures r.Success? ==> NoDuplicates(r.value)
    ensures r.Success? ==> forall v :: v in labels ==> v in r.value
    ensures r.Success? ==> forall v :: v in r.value[2..] <==> v in labels && IsWeekLabel(v)
    ensures r.Success? ==> DescendingStable(r.value[2..], labels)
    ensures r.Success? ==> CategoryLayout(r.value)
  {
    if exists i :: 0 <= i < |labels| && IsBlank(labels[i]) then Failure(BlankPeriodLabel)
    else if Missing in labels then Failure(NullPeriodLabel)
    else
      var sorted := SortedWeeks(labels);
      PrefixedNoDuplicates(sorted);
      var order := PPC_ORDER + sorted;
      assert order[2..] == sorted;
      assert order[..2] == PPC_ORDER;
      assert forall v :: v in labels ==> v in order by {
        forall v | v in labels
          ensures v in order
        {
          if IsWeekLabel(v) {
            assert v in sorted;
          } else {
            assert v in PPC_ORDER;
          }
        }
      }
      Success(order)
  }

  /** The order a category position expresses, stated on the labels themselves. */
  predicate PeriodPrecedes(p: Value, q: Value) {
    || p == OVERDUE
    || (p == DUE && q != OVERDUE)
    || (IsWeekLabel(p) && IsWeekLabel(q) && WeekKey(p) >= WeekKey(q))
  }

  /** A label placed no later than another in a category order precedes it. */
  lemma PositionRespectsPrecedence(order: seq<Value>, p: Value, q: Value)
    requires CategoryLayout(order)
    requires p in order && q in order
    requires IndexOf(order, p) <= IndexOf(order, q)
    ensures PeriodPrecedes(p, q)
  {
    var a := IndexOf(order, p);
    var b := IndexOf(order, q);
    var tail := order[2..];
    assert order[0] == OVERDUE && order[1] == DUE by {
      assert order[..2][0] == order[0] && order[..2][1] == order[1];
    }
    if b >= 2 {
      assert q == tail[b - 2] && q in tail;
    }
    if a >= 2 && a < b {
      assert p == tail[a - 2];
    }
  }
}

=== FILE: query.dfy ===
/**
 * process_query (processing.py:44-73): check the requested attributes, keep the rows of one
 * order type, group and sum, order by category and total, and optionally keep the top groups
 * of each category bucket.
 */
module Query {
  import opened Outcomes
  import opened Frames
  import opened Seqs
  import opened Sorting
  import opened Periods
  import opened Aggregate
  import opened Ranking

  /** The delivery periods of the groups, in group order. */
  function PeriodsOf(gs: seq<Group>): (ps: seq<Value>)
  {
    seq(|gs|, i requires 0 <= i < |gs| => gs[i].key.period)
  }

  /** The first name that occurs again later in s, if any. */
  function Repeated(s: seq<string>): (r: Option<string>)
    ensures r.None? <==> NoDuplicates(s)
    ensures r.Some? ==> exists i, j :: 0 <= i < j < |s| && s[i] == r.value && s[j] == r.value
  {
    if |s| == 0 then None
    else if s[0] in s[1..] then
      var j :| 0 <= j < |s[1..]| && s[1..][j] == s[0];
      assert s[j + 1] == s[0];
      Some(s[0])
    else
      var r := Repeated(s[1..]);
      assert NoDuplicates(s) <==> NoDuplicates(s[1..]) by {
        if NoDuplicates(s[1..]) {
          forall i, j | 0 <= i < j < |s|
            ensures s[i] != s[j]
          {
            if i > 0 {
              assert s[i] == s[1..][i - 1] && s[j] == s[1..][j - 1];
            } else {
              assert s[j] == s[1..][j - 1];
            }
          }
        }
      }
      if r.Some? then
        var i, j :| 0 <= i < j < |s[1..]| && s[1..][i] == r.value && s[1..][j] == r.value;
        assert s[i + 1] == r.value && s[j + 1] == r.value;
        r
      else r
  }

  /** Some key has a blank delivery period. */
  ghost predicate HasBlankPeriod(keys: seq<Key>) {
    exists i :: 0 <= i < |keys| && IsBlank(keys[i].period)
  }

  /** The ranked result: periods in category order, contiguous buckets, totals descending inside a bucket. */
  ghost predicate RankedByPeriod(s: seq<Group>) {
    && (forall i, j :: 0 <= i < j < |s| ==> PeriodPrecedes(s[i].key.period, s[j].key.period))
    && (forall i, j :: 0 <= i < j < |s| && s[i].key.period == s[j].key.period ==> s[i].total >= s[j].total)
    && (forall i, j, k :: 0 <= i < j < k < |s| && s[i].key.period == s[k].key.period ==>
          s[j].key.period == s[i].key.period)
  }

  /** Sorting by category position then total gives a ranking by period. */
  lemma {:induction false} RankedFromSorted(s: seq<Group>, order: seq<Value>)
    requires CategoryLayout(order)
    requires forall i :: 0 <= i < |s| ==> s[i].key.period in order
    requires SortedBy(s, GroupRank(order))
    ensures RankedByPeriod(s)
  {
    var key := GroupRank(order);
    forall i, j | 0 <= i < j < |s|
      ensures PeriodPrecedes(s[i].key.period, s[j].key.period)
      ensures s[i].key.period == s[j].key.period ==> s[i].total >= s[j].total
    {
      assert RankLe(key(s[i]), key(s[j]));
      PositionRespectsPrecedence(order, s[i].key.period, s[j].key.period);
    }
    forall i, j, k | 0 <= i < j < k < |s| && s[i].key.period == s[k].key.period
      ensures s[j].key.period == s[i].key.period
    {
      assert RankLe(key(s[i]), key(s[j])) && RankLe(key(s[j]), key(s[k]));
      assert IndexOf(order, s[j].key.period) == IndexOf(order, s[i].key.period);
    }
  }

  /** Groups are told apart by their keys. */
  ghost predicate KeyedUniquely(s: seq<Group>) {
    forall g, h :: g in s && h in s && g.key == h.key ==> g == h
  }

  lemma DistinctKeysAreKeyedUniquely(s: seq<Group>)
    requires NoDuplicates(Keys(s))
    ensures NoDuplicates(s) && KeyedUniquely(s)
  {
    forall g, h | g in s && h in s && g.key == h.key
      ensures g == h
    {
      var i :| 0 <= i < |s| && s[i] == g;
      var j :| 0 <= j < |s| && s[j] == h;
      assert Keys(s)[i] == Keys(s)[j];
    }
    forall i, j | 0 <= i < j < |s|
      ensures s[i] != s[j]
    {
      assert Keys(s)[i] != Keys(s)[j];
    }
  }

  lemma KeyedUniquelyHasDistinctKeys(s: seq<Group>)
    requires NoDuplicates(s) && KeyedUniquely(s)
    ensures NoDuplicates(Keys(s))
  {
    forall i, j | 0 <= i < j < |s|
      ensures Keys(s)[i] != Keys(s)[j]
    {
      assert s[i] in s && s[j] in s;
    }
  }

  lemma KeyIn(s: seq<Group>, g: Group)
    requires g in s
    ensures g.key in Keys(s)
  {
    var i :| 0 <= i < |s| && s[i] == g;
    assert Keys(s)[i] == g.key;
  }

  /** Sorting groups with distinct keys keeps the same groups, with distinct keys. */
  lemma SortKeepsGroups(groups: seq<Group>, key: Group -> Rank)
    requires NoDuplicates(Keys(groups))
    ensures NoDuplicates(Keys(SortBy(groups, key)))
    ensures forall g :: g in SortBy(groups, key) <==> g in groups
  {
    var ranked := SortBy(groups, key);
    DistinctKeysAreKeyedUniquely(groups);
    SortByNoDuplicates(groups, key);
    forall g
      ensures g in ranked <==> g in groups
    {
      assert g in ranked <==> g in multiset(ranked);
    }
    KeyedUniquelyHasDistinctKeys(ranked);
  }

  /** Groups drawn from groups whose periods are all in order have their periods in order. */
  lemma PeriodsInOrder(groups: seq<Group>, s: seq<Group>, order: seq<Value>)
    requires forall i :: 0 <= i < |groups| ==> groups[i].key.period in order
    requires forall g :: g in s ==> g in groups
    ensures forall i :: 0 <= i < |s| ==> s[i].key.period in order
  {
    forall i | 0 <= i < |s|
      ensures s[i].key.period in order
    {
      assert s[i] in s;
      var j :| 0 <= j < |groups| && groups[j] == s[i];
    }
  }

  /** An order holding every period label of the groups holds each group's period. */
  lemma PeriodsCovered(groups: seq<Group>, order: seq<Value>)
    requires forall v :: v in PeriodsOf(groups) ==> v in order
    ensures forall i :: 0 <= i < |groups| ==> groups[i].key.period in order
  {
    forall i | 0 <= i < |groups|
      ensures groups[i].key.period in order
    {
      assert PeriodsOf(groups)[i] in PeriodsOf(groups);
    }
  }

  /** What sorting the groups by category position and total establishes. */
  lemma {:induction false} SortedGroups(groups: seq<Group>, order: seq<Value>)
    requires CategoryLayout(order)
    requires forall i :: 0 <= i < |groups| ==> groups[i].key.period in order
    requires NoDuplicates(Keys(groups))
    ensures var ranked := SortBy(groups, GroupRank(order));
      && NoDuplicates(Keys(ranked))
      && (forall g :: g in ranked <==> g in groups)
      && RankedByPeriod(ranked)
  {
    var ranked := SortBy(groups, GroupRank(order));
    SortKeepsGroups(groups, GroupRank(order));
    PeriodsInOrder(groups, ranked, order);
    RankedFromSorted(ranked, order);
  }

  /** What truncating the ranked groups to n per bucket establishes. */
  lemma TruncatedGroups(groups: seq<Group>, order: seq<Value>, n: nat)
    requires CategoryLayout(order)
    requires forall i :: 0 <= i < |groups| ==> groups[i].key.period in order
    requires NoDuplicates(Keys(groups))
    ensures var kept := KeepPerBucket(SortBy(groups, GroupRank(order)), n);
      && NoDuplicates(Keys(kept))
      && (forall g :: g in kept ==> g in groups)
      && RankedByPeriod(kept)
      && (forall p :: |Bucket(kept, p)| <= n)
      && (forall h :: h in groups && h !in kept ==>
            |Bucket(kept, h.key.period)| == n &&
            forall g :: g in Bucket(kept, h.key.period) ==> g.total >= h.total)
  {
    var ranked := SortBy(groups, GroupRank(order));
    var kept := KeepPerBucket(ranked, n);
    SortKeepsGroups(groups, GroupRank(order));
    KeepPerBucketSorted(ranked, n, GroupRank(order));
    KeepPerBucketKeys(ranked, n);
    PeriodsInOrder(groups, kept, order);
    RankedFromSorted(kept, order);
    forall p
      ensures |Bucket(kept, p)| <= n
    {
      KeepPerBucketBound(ranked, n, p);
    }
    forall h | h in groups && h !in kept
      ensures |Bucket(kept, h.key.period)| == n
      ensures forall g :: g in Bucket(kept, h.key.period) ==> g.total >= h.total
    {
      DroppedGroupIsSmaller(ranked, order, n, h);
    }
  }

  /**
   * The groups ranked by the category order, each bucket truncated to its first n groups
   * when n is given.
   */
  function RankGroups(groups: seq<Group>, order: seq<Value>, topN: Option<nat>): (r: seq<Group>)
    requires CategoryLayout(order)
    requires forall i :: 0 <= i < |groups| ==> groups[i].key.period in order
    requires NoDuplicates(Keys(groups))
    ensures NoDuplicates(Keys(r))
    ensures forall g :: g in r ==> g in groups
    ensures RankedByPeriod(r)
    ensures topN.None? ==> forall g :: g in groups ==> g in r
    ensures topN.Some? ==> forall p :: |Bucket(r, p)| <= topN.value
    ensures topN.Some? ==>
              forall h :: h in groups && h !in r ==>
                |Bucket(r, h.key.period)| == topN.value &&
                forall g :: g in Bucket(r, h.key.period) ==> g.total >= h.total
  {
    var ranked := SortBy(groups, GroupRank(order));
    match topN
    case None =>
      SortedGroups(groups, order);
      ranked
    case Some(n) =>
      TruncatedGroups(groups, order, n);
      KeepPerBucket(ranked, n)
  }

  /** Every column the query reads exists, and no column would occur twice in the grouped result. */
  ghost predicate ColumnsReady(t: Table, attributes: seq<string>, metric: string) {
    && (forall a :: a in attributes ==> a in t.columns)
    && ORDER_TYPE_COLUMN in t.columns && PERIOD_COLUMN in t.columns && metric in t.columns
    && NoDuplicates(attributes + [PERIOD_COLUMN, metric])
  }

  /**
   * An attribute is named like the summed column while the metric is not: renaming the metric
   * column then gives the grouped result two columns of that name.
   */
  predicate TotalClash(attributes: seq<string>, metric: string) {
    TOTAL_COLUMN in attributes && metric != TOTAL_COLUMN
  }

  /** The metric column holds numbers or empty cells. */
  ghost predicate NumericMetric(t: Table, metric: string) {
    forall i :: 0 <= i < |t.rows| && metric in t.rows[i] ==> !t.rows[i][metric].Text?
  }

  lemma ReadyRowsHaveCells(t: Table, attributes: seq<string>, metric: string)
    requires t.Valid() && NumericMetric(t, metric)
    requires forall a :: a in attributes ==> a in t.columns
    requires ORDER_TYPE_COLUMN in t.columns && PERIOD_COLUMN in t.columns && metric in t.columns
    ensures AllHaveCells(t.rows, attributes, metric)
  {
    forall i | 0 <= i < |t.rows|
      ensures HasCells(t.rows[i], attributes, metric)
    {
      assert t.rows[i].Keys == t.ColumnSet();
    }
  }

  /** The category labels of a grouping: never empty, blank exactly when an eligible key's period is. */
  lemma GroupPeriods(rows: seq<Row>, orderType: string, attrs: seq<string>, metric: string, groups: seq<Group>)
    requires AllHaveCells(rows, attrs, metric)
    requires GroupsOf(groups, rows, orderType, attrs, metric)
    ensures Missing !in PeriodsOf(groups)
    ensures (exists i :: 0 <= i < |groups| && IsBlank(PeriodsOf(groups)[i])) <==>
              HasBlankPeriod(EligibleKeys(rows, orderType, attrs, metric))
  {
    var keys := EligibleKeys(rows, orderType, attrs, metric);
    var labels := PeriodsOf(groups);
    EligibleKeysComplete(rows, orderType, attrs, metric);
    forall i | 0 <= i < |groups|
      ensures labels[i] != Missing
    {
      assert Keys(groups)[i] in keys;
    }
    if exists i :: 0 <= i < |groups| && IsBlank(labels[i]) {
      var i :| 0 <= i < |groups| && IsBlank(labels[i]);
      assert Keys(groups)[i] in keys;
    }
    if HasBlankPeriod(keys) {
      var i :| 0 <= i < |keys| && IsBlank(keys[i].period);
      assert keys[i] in Keys(groups);
      var j :| 0 <= j < |groups| && Keys(groups)[j] == keys[i];
      assert IsBlank(labels[j]);
    }
  }

  /** Groups drawn from a grouping carry eligible keys and their exact sums. */
  lemma DrawnGroupsSums(rows: seq<Row>, orderType: string, attrs: seq<string>, metric: string,
                        groups: seq<Group>, r: seq<Group>)
    requires AllHaveCells(rows, attrs, metric)
    requires GroupsOf(groups, rows, orderType, attrs, metric)
    requires forall g :: g in r ==> g in groups
    ensures forall i :: 0 <= i < |r| ==>
              r[i].key in EligibleKeys(rows, orderType, attrs, metric) &&
              r[i].total == SumFor(rows, orderType, attrs, metric, r[i].key)
  {
    forall i | 0 <= i < |r|
      ensures r[i].key in EligibleKeys(rows, orderType, attrs, metric)
      ensures r[i].total == SumFor(rows, orderType, attrs, metric, r[i].key)
    {
      assert r[i] in r;
      var j :| 0 <= j < |groups| && groups[j] == r[i];
      assert Keys(groups)[j] == r[i].key;
    }
  }

  /** Every eligible key is the key of some group of the grouping. */
  lemma EligibleKeyGroup(rows: seq<Row>, orderType: string, attrs: seq<string>, metric: string,
                         groups: seq<Group>, k: Key) returns (h: Group)
    requires AllHaveCells(rows, attrs, metric)
    requires GroupsOf(groups, rows, orderType, attrs, metric)
    requires k in EligibleKeys(rows, orderType, attrs, metric)
    ensures h in groups && h.key == k && h.total == SumFor(rows, orderType, attrs, metric, k)
  {
    var j :| 0 <= j < |groups| && Keys(groups)[j] == k;
    h := groups[j];
  }

  /** The properties of the ranked (and possibly truncated) grouping, in terms of the rows. */
  lemma ResultOfGroups(rows: seq<Row>, orderType: string, attrs: seq<string>, metric: string,
                       groups: seq<Group>, order: seq<Value>, topN: Option<nat>)
    requires AllHaveCells(rows, attrs, metric)
    requires GroupsOf(groups, rows, orderType, attrs, metric)
    requires CategoryLayout(order)
    requires forall i :: 0 <= i < |groups| ==> groups[i].key.period in order
    ensures var r := RankGroups(groups, order, topN);
      var keys := EligibleKeys(rows, orderType, attrs, metric);
      && (forall i :: 0 <= i < |r| ==>
            r[i].key in keys && r[i].total == SumFor(rows, orderType, attrs, metric, r[i].key))
      && (topN.None? ==> forall k :: k in keys ==> k in Keys(r))
      && (topN.Some? ==>
            forall k :: k in keys && k !in Keys(r) ==>
              |Bucket(r, k.period)| == topN.value &&
              forall g :: g in Bucket(r, k.period) ==> g.total >= SumFor(rows, orderType, attrs, metric, k))
  {
    var r := RankGroups(groups, order, topN);
    var keys := EligibleKeys(rows, orderType, attrs, metric);
    DrawnGroupsSums(rows, orderType, attrs, metric, groups, r);
    forall k | k in keys
      ensures topN.None? ==> k in Keys(r)
      ensures topN.Some? && k !in Keys(r) ==>
                |Bucket(r, k.period)| == topN.value &&
                forall g :: g in Bucket(r, k.period) ==> g.total >= SumFor(rows, orderType, attrs, metric, k)
    {
      var h := EligibleKeyGroup(rows, orderType, attrs, metric, groups, k);
      if h in r {
        KeyIn(r, h);
      }
    }
  }


  /**
   * process_query: the grouped, summed, ranked and optionally truncated rows of one order
   * type, or the first error the source would raise.
   */
  function ProcessQuery(t: Table, orderType: string, metric: string, attributes: seq<string>, topN: Option<nat>)
    : (r: Result<seq<Group>, Error>)
    requires t.Valid() && NumericMetric(t, metric)
    ensures (exists a :: a in attributes && a !in t.columns) <==> r.Failure? && r.error.MissingAttributes?
    ensures r.Failure? && r.error.MissingAttributes? ==> r.error.names == Absent(attributes, t.columns)
    ensures r.Failure? && r.error.MissingColumn? ==>
              r.error.name !in t.columns && r.error.name in [ORDER_TYPE_COLUMN, PERIOD_COLUMN, metric]
    ensures r.Failure? && r.error.ColumnClash? ==>
              var cols := attributes + [PERIOD_COLUMN, metric];
              || (exists i, j :: 0 <= i < j < |cols| && cols[i] == r.error.name && cols[j] == r.error.name)
              || (r.error.name == TOTAL_COLUMN && TotalClash(attributes, metric))
    ensures r.Failure? ==> r.error != NullPeriodLabel
    ensures r == Failure(BlankPeriodLabel) ==>
              ColumnsReady(t, attributes, metric) &&
              HasBlankPeriod(EligibleKeys(t.rows, orderType, attributes, metric))
    ensures ColumnsReady(t, attributes, metric) ==> AllHaveCells(t.rows, attributes, metric)
    ensures r.Success? <==>
              ColumnsReady(t, attributes, metric) &&
              !HasBlankPeriod(EligibleKeys(t.rows, orderType, attributes, metric)) &&
              !TotalClash(attributes, metric)
    ensures (ColumnsReady(t, attributes, metric) &&
             !HasBlankPeriod(EligibleKeys(t.rows, orderType, attributes, metric)) &&
             TotalClash(attributes, metric)) ==>
              r == Failure(ColumnClash(TOTAL_COLUMN))
    ensures r.Success? ==> NoDuplicates(Keys(r.value)) && RankedByPeriod(r.value)
    ensures r.Success? ==>
              forall i :: 0 <= i < |r.value| ==>
                r.value[i].key in EligibleKeys(t.rows, orderType, attributes, metric) &&
                r.value[i].total == SumFor(t.rows, orderType, attributes, metric, r.value[i].key)
    ensures r.Success? && topN.None? ==>
              forall k :: k in EligibleKeys(t.rows, orderType, attributes, metric) ==> k in Keys(r.value)
    ensures r.Success? && topN.Some? ==> forall p :: |Bucket(r.value, p)| <= topN.value
    ensures r.Success? && topN.Some? ==>
              forall k :: k in EligibleKeys(t.rows, orderType, attributes, metric) && k !in Keys(r.value) ==>
                |Bucket(r.value, k.period)| == topN.value &&
                forall g :: g in Bucket(r.value, k.period) ==>
                  g.total >= SumFor(t.rows, orderType, attributes, metric, k)
  {
    var missing := Absent(attributes, t.columns);
    if |missing| > 0 then Failure(MissingAttributes(missing))
    else if ORDER_TYPE_COLUMN !in t.columns then Failure(MissingColumn(ORDER_TYPE_COLUMN))
    else if PERIOD_COLUMN !in t.columns then Failure(MissingColumn(PERIOD_COLUMN))
    else if metric !in t.columns then Failure(MissingColumn(metric))
    else
      match Repeated(attributes + [PERIOD_COLUMN, metric])
      case Some(name) => Failure(ColumnClash(name))
      case None =>
        ReadyRowsHaveCells(t, attributes, metric);
        var groups := GroupSum(t.rows, orderType, attributes, metric);
        GroupPeriods(t.rows, orderType, attributes, metric, groups);
        match CategoryOrder(PeriodsOf(groups))
        case Failure(e) => Failure(e)
        case Success(order) =>
          if TotalClash(attributes, metric) then Failure(ColumnClash(TOTAL_COLUMN))
          else
            PeriodsCovered(groups, order);
            ResultOfGroups(t.rows, orderType, attributes, metric, groups, order, topN);
            Success(RankGroups(groups, order, topN))
  }

  /**
   * The order in which process_query fails: the order-type column is read first (the filter),
   * then the period and the metric column (the grouping), a repeated column stops the index
   * reset before any label is read, and a blank period label stops the category order before
   * the sort meets a second "total" column.
   */
  lemma ProcessQueryErrorOrder(t: Table, orderType: string, metric: string, attributes: seq<string>,
                               topN: Option<nat>)
    requires t.Valid() && NumericMetric(t, metric)
    ensures var r := ProcessQuery(t, orderType, metric, attributes, topN);
      && ((forall a :: a in attributes ==> a in t.columns) && ORDER_TYPE_COLUMN !in t.columns ==>
            r == Failure(MissingColumn(ORDER_TYPE_COLUMN)))
      && ((forall a :: a in attributes ==> a in t.columns) && ORDER_TYPE_COLUMN in t.columns &&
          PERIOD_COLUMN !in t.columns ==>
            r == Failure(MissingColumn(PERIOD_COLUMN)))
      && ((forall a :: a in attributes ==> a in t.columns) && ORDER_TYPE_COLUMN in t.columns &&
          PERIOD_COLUMN in t.columns && metric !in t.columns ==>
            r == Failure(MissingColumn(metric)))
      && ((forall a :: a in attributes ==> a in t.columns) && ORDER_TYPE_COLUMN in t.columns &&
          PERIOD_COLUMN in t.columns && metric in t.columns &&
          Repeated(attributes + [PERIOD_COLUMN, metric]).Some? ==>
            r.Failure? && r.error.ColumnClash?)
      && (ColumnsReady(t, attributes, metric) &&
          HasBlankPeriod(EligibleKeys(t.rows, orderType, attributes, metric)) ==>
            r == Failure(BlankPeriodLabel))
  {
    var missing := Absent(attributes, t.columns);
    if (forall a :: a in attributes ==> a in t.columns) {
      assert |missing| == 0;
    }
    if ColumnsReady(t, attributes, metric) &&
       HasBlankPeriod(EligibleKeys(t.rows, orderType, attributes, metric)) {
      assert Repeated(attributes + [PERIOD_COLUMN, metric]).None?;
      ReadyRowsHaveCells(t, attributes, metric);
      var groups := GroupSum(t.rows, orderType, attributes, metric);
      GroupPeriods(t.rows, orderType, attributes, metric, groups);
      assert CategoryOrder(PeriodsOf(groups)) == Failure(BlankPeriodLabel);
    }
  }

  /**
   * An attribute called "total" next to another metric is refused even on an empty sheet: the
   * grouped result would hold two "total" columns, and sorting by that label fails.
   */
  lemma TotalAttributeRefused()
    ensures var t := Table([TOTAL_COLUMN, PERIOD_COLUMN, ORDER_TYPE_COLUMN, "M"], []);
      t.Valid() && ProcessQuery(t, "LGD", "M", [TOTAL_COLUMN], None) == Failure(ColumnClash(TOTAL_COLUMN))
  {
    var t := Table([TOTAL_COLUMN, PERIOD_COLUMN, ORDER_TYPE_COLUMN, "M"], []);
    assert NoDuplicates(t.columns);
    assert NoDuplicates([TOTAL_COLUMN] + [PERIOD_COLUMN, "M"]);
    assert EligibleKeys(t.rows, "LGD", [TOTAL_COLUMN], "M") == [];
  }
}

=== FILE: ranking.dfy ===
/**
 * Ordering of the grouped rows (processing.py:67-68) and the optional per-period truncation
 * (processing.py:70-71).
 */
module Ranking {
  import opened Frames
  import opened Seqs
  import opened Sorting
  import opened Aggregate

  /** The sort of process_query: category position ascending, then total descending. */
  function GroupRank(order: seq<Value>): (rank: Group -> Rank) {
    (g: Group) => Rank(IndexOf(order, g.key.period), -g.total)
  }

  /** The groups of one category bucket, in order. */
  function Bucket(s: seq<Group>, p: Value): (b: seq<Group>)
    ensures |b| <= |s|
    ensures forall g :: g in b <==> g in s && g.key.period == p
  {
    if |s| == 0 then []
    else
      var g := s[|s| - 1];
      var rest := Bucket(s[..|s| - 1], p);
      assert s == s[..|s| - 1] + [g];
      if g.key.period == p then rest + [g] else rest
  }

  lemma BucketAppend(s: seq<Group>, g: Group, p: Value)
    ensures Bucket(s + [g], p) == Bucket(s, p) + if g.key.period == p then [g] else []
  {
    assert (s + [g])[..|s|] == s;
  }

  /** The first n elements of b, or all of b when it is shorter. */
  function Take(b: seq<Group>, n: nat): (prefix: seq<Group>) {
    if |b| <= n then b else b[..n]
  }

  /** Appending one group keeps each truncated bucket equal to the truncation of the bucket. */
  lemma KeepStep(p: seq<Group>, g: Group, r: seq<Group>, n: nat, q: Value)
    requires Bucket(r, q) == Take(Bucket(p, q), n)
    requires Bucket(r, g.key.period) == Take(Bucket(p, g.key.period), n)
    ensures var kept := if |Bucket(p, g.key.period)| < n then r + [g] else r;
      Bucket(kept, q) == Take(Bucket(p + [g], q), n)
  {
    BucketAppend(p, g, q);
    BucketAppend(r, g, q);
    var b := Bucket(p, q);
    if g.key.period == q && |b| >= n {
      assert (b + [g])[..n] == b[..n];
    }
  }

  /** pandas' `groupby(period).head(n)`: a group is kept when fewer than n groups of its bucket precede it. */
  function KeepPerBucket(s: seq<Group>, n: nat): (r: seq<Group>)
    ensures forall p :: Bucket(r, p) == Take(Bucket(s, p), n)
    ensures forall g :: g in r ==> g in s
  {
    if |s| == 0 then []
    else
      var p := s[..|s| - 1];
      var g := s[|s| - 1];
      var r := KeepPerBucket(p, n);
      assert s == p + [g];
      var kept := if |Bucket(p, g.key.period)| < n then r + [g] else r;
      forall q
        ensures Bucket(kept, q) == Take(Bucket(s, q), n)
      {
        KeepStep(p, g, r, n, q);
      }
      kept
  }

  /** Every bucket of a truncated result holds at most n groups. */
  lemma KeepPerBucketBound(s: seq<Group>, n: nat, p: Value)
    ensures |Bucket(KeepPerBucket(s, n), p)| <= n
  {
  }

  /** Truncation keeps the sequence sorted. */
  lemma {:induction false} KeepPerBucketSorted(s: seq<Group>, n: nat, key: Group -> Rank)
    requires SortedBy(s, key)
    ensures SortedBy(KeepPerBucket(s, n), key)
  {
    if |s| > 0 {
      var p := s[..|s| - 1];
      var g := s[|s| - 1];
      KeepPerBucketSorted(p, n, key);
      var r := KeepPerBucket(p, n);
      forall x | x in r
        ensures RankLe(key(x), key(g))
      {
        var k :| 0 <= k < |p| && p[k] == x;
        assert s[k] == x;
      }
    }
  }

  /** Truncation keeps group keys distinct. */
  lemma {:induction false} KeepPerBucketKeys(s: seq<Group>, n: nat)
    requires NoDuplicates(Keys(s))
    ensures NoDuplicates(Keys(KeepPerBucket(s, n)))
  {
    if |s| > 0 {
      var p := s[..|s| - 1];
      var g := s[|s| - 1];
      assert Keys(p) == Keys(s)[..|s| - 1];
      KeepPerBucketKeys(p, n);
      var r := KeepPerBucket(p, n);
      assert Keys(s)[|s| - 1] == g.key;
      forall x | x in r
        ensures x.key != g.key
      {
        var k :| 0 <= k < |p| && p[k] == x;
        assert Keys(s)[k] == x.key;
      }
      assert Keys(r + [g]) == Keys(r) + [g.key];
    }
  }

  /** A bucket of a sorted sequence is sorted. */
  lemma {:induction false} BucketSorted(s: seq<Group>, p: Value, key: Group -> Rank)
    requires SortedBy(s, key)
    ensures SortedBy(Bucket(s, p), key)
  {
    if |s| > 0 {
      var q := s[..|s| - 1];
      BucketSorted(q, p, key);
      forall x | x in Bucket(q, p)
        ensures RankLe(key(x), key(s[|s| - 1]))
      {
        var k :| 0 <= k < |q| && q[k] == x;
        assert s[k] == x;
      }
    }
  }

  /** Within a bucket of the ranked groups, totals never increase. */
  lemma {:induction false} BucketTotalsDescending(s: seq<Group>, order: seq<Value>, p: Value)
    requires SortedBy(s, GroupRank(order))
    ensures forall i, j :: 0 <= i < j < |Bucket(s, p)| ==> Bucket(s, p)[i].total >= Bucket(s, p)[j].total
  {
    BucketSorted(s, p, GroupRank(order));
    var b := Bucket(s, p);
    forall i, j | 0 <= i < j < |b|
      ensures b[i].total >= b[j].total
    {
      assert b[i] in b && b[j] in b;
      assert RankLe(GroupRank(order)(b[i]), GroupRank(order)(b[j]));
    }
  }

  /** An element of a descending sequence left out of its first n is preceded by n at least as large. */
  lemma TakeLeavesSmaller(b: seq<Group>, n: nat, h: Group)
    requires forall i, j :: 0 <= i < j < |b| ==> b[i].total >= b[j].total
    requires h in b && h !in Take(b, n)
    ensures |Take(b, n)| == n
    ensures forall g :: g in Take(b, n) ==> g.total >= h.total
  {
    var idx :| 0 <= idx < |b| && b[idx] == h;
    assert |b| > n;
    assert idx >= n;
    forall g | g in Take(b, n)
      ensures g.total >= h.total
    {
      var i :| 0 <= i < n && b[..n][i] == g;
      assert b[i] == g;
    }
  }

  /**
   * A group of a ranked sequence that truncation drops lost its place to n groups of its own
   * bucket, each with a total at least as large.
   */
  lemma DroppedGroupIsSmaller(s: seq<Group>, order: seq<Value>, n: nat, h: Group)
    requires SortedBy(s, GroupRank(order))
    requires h in s && h !in KeepPerBucket(s, n)
    ensures |Bucket(KeepPerBucket(s, n), h.key.period)| == n
    ensures forall g :: g in Bucket(KeepPerBucket(s, n), h.key.period) ==> g.total >= h.total
  {
    var p := h.key.period;
    var b := Bucket(s, p);
    BucketTotalsDescending(s, order, p);
    assert Bucket(KeepPerBucket(s, n), p) == Take(b, n);
    TakeLeavesSmaller(b, n, h);
  }
}

=== FILE: requests.dfy ===
/**
 * Request validation of the query endpoint (main.py:10-34): the allow-lists and the checks run,
 * in order, before any file is fetched.
 */
module Requests {
  import opened Outcomes
  import opened Seqs
  import Frames
  import Classify

  const ALLOWED_METRICS: seq<string> := ["Total Bag Bal", "Bal To Prod Qty", "Bal To Exp Qty", "BalToMfg", "CastBal"]
  const ALLOWED_ATTRIBUTES: seq<string> := ["SO type", "Dsg Ctg", "KT", "Set Type", "Factory"]
  const ALLOWED_ORDER_TYPES: seq<string> := ["LGD", "Mined"]

  /** HTTP status of every validation rejection. */
  const BAD_REQUEST := 400

  /** The body of a query request; folder and file name are only passed on to the fetch. */
  datatype QueryRequest = QueryRequest(
    boxFolderId: string,
    filename: string,
    metric: string,
    orderType: string,
    attributes: seq<string>,
    topN: Option<int>)

  /** Why a request was refused. */
  datatype Reason =
    | InvalidMetric(metric: string)
    | InvalidOrderType(orderType: string)
    | NoAttributes
    | InvalidAttributes(bad: seq<string>)

  /** An HTTP error response. */
  datatype Rejection = Rejection(status: int, reason: Reason)

  /**
   * The checks of the endpoint in source order, the first failing one answering: metric,
   * order type, non-empty attributes, then every attribute against its allow-list.
   * None means the request goes on to the fetch.
   */
  function Validate(req: QueryRequest): (r: Option<Rejection>)
    ensures r.Some? ==> r.value.status == BAD_REQUEST
    ensures r.Some? && r.value.reason.InvalidMetric? <==> req.metric !in ALLOWED_METRICS
    ensures r.Some? && r.value.reason.InvalidMetric? ==> r.value.reason.metric == req.metric
    ensures r.Some? && r.value.reason.InvalidOrderType? <==>
              req.metric in ALLOWED_METRICS && req.orderType !in ALLOWED_ORDER_TYPES
    ensures r.Some? && r.value.reason.InvalidOrderType? ==> r.value.reason.orderType == req.orderType
    ensures r.Some? && r.value.reason.NoAttributes? <==>
              req.metric in ALLOWED_METRICS && req.orderType in ALLOWED_ORDER_TYPES && |req.attributes| == 0
    ensures r.Some? && r.value.reason.InvalidAttributes? <==>
              req.metric in ALLOWED_METRICS && req.orderType in ALLOWED_ORDER_TYPES &&
              exists a :: a in req.attributes && a !in ALLOWED_ATTRIBUTES
    ensures r.Some? && r.value.reason.InvalidAttributes? ==>
              forall a :: multiset(r.value.reason.bad)[a] ==
                if a in ALLOWED_ATTRIBUTES then 0 else multiset(req.attributes)[a]
    ensures r.Some? && r.value.reason.InvalidAttributes? ==>
              r.value.reason.bad == Absent(req.attributes, ALLOWED_ATTRIBUTES)
    ensures r.None? <==>
              && req.metric in ALLOWED_METRICS
              && req.orderType in ALLOWED_ORDER_TYPES
              && |req.attributes| > 0
              && forall a :: a in req.attributes ==> a in ALLOWED_ATTRIBUTES
  {
    if req.metric !in ALLOWED_METRICS then Some(Rejection(BAD_REQUEST, InvalidMetric(req.metric)))
    else if req.orderType !in ALLOWED_ORDER_TYPES then Some(Rejection(BAD_REQUEST, InvalidOrderType(req.orderType)))
    else if |req.attributes| == 0 then Some(Rejection(BAD_REQUEST, NoAttributes))
    else
      var bad := Absent(req.attributes, ALLOWED_ATTRIBUTES);
      if |bad| > 0 then Some(Rejection(BAD_REQUEST, InvalidAttributes(bad))) else None
  }

  /** The accepted order types are exactly the labels the classifier produces. */
  lemma OrderTypesMatchClassifier()
    ensures forall d :: Classify.OrderTypeOf(d) in ALLOWED_ORDER_TYPES
    ensures forall o :: o in ALLOWED_ORDER_TYPES ==> exists d :: Classify.OrderTypeOf(d) == o
  {
    Classify.OrderTypesReached();
    forall o | o in ALLOWED_ORDER_TYPES
      ensures exists d :: Classify.OrderTypeOf(d) == o
    {
      if o == Classify.LGD {
        assert Classify.OrderTypeOf(Frames.Text("LGD")) == o;
      } else {
        assert Classify.OrderTypeOf(Frames.Missing) == o;
      }
    }
  }

  /**
   * An accepted request never names the metric or the period among its attributes, so the
   * grouped result can only see a column twice when an attribute is repeated.
   */
  lemma AcceptedColumnsAreApart(req: QueryRequest)
    requires Validate(req).None?
    ensures req.metric !in req.attributes
    ensures Frames.PERIOD_COLUMN !in req.attributes
  {
  }
}

=== FILE: seqs.dfy ===
/** Sequence helpers shared by the report pipeline: search, list-comprehension filters, unique(). */
module Seqs {

  /** No element occurs twice. */
  ghost predicate NoDuplicates<T>(s: seq<T>) {
    forall i, j :: 0 <= i < j < |s| ==> s[i] != s[j]
  }

  /** First position of x in s, or |s| when x does not occur. */
  function IndexOf<T(==)>(s: seq<T>, x: T): (i: nat)
    ensures i <= |s|
    ensures i < |s| ==> s[i] == x
    ensures i == |s| <==> x !in s
    ensures forall k :: 0 <= k < i ==> s[k] != x
  {
    if |s| == 0 then 0
    else if s[0] == x then 0
    else 1 + IndexOf(s[1..], x)
  }

  /** Appending an element does not move the first position of an element already present. */
  lemma IndexOfAppend<T>(p: seq<T>, z: T, y: T)
    requires y in p
    ensures IndexOf(p + [z], y) == IndexOf(p, y)
  {
    var k := IndexOf(p, y);
    var s := p + [z];
    assert s[k] == y;
  }

  /**
   * The elements of xs that are not in pool, in order and with repetitions: the shape of the
   * comprehension `[a for a in xs if a not in pool]`.
   */
  function Absent<T(==,!new)>(xs: seq<T>, pool: seq<T>): (r: seq<T>)
    ensures forall a :: a in r <==> a in xs && a !in pool
    ensures forall a :: multiset(r)[a] == if a in pool then 0 else multiset(xs)[a]
    ensures |r| == 0 <==> forall a :: a in xs ==> a in pool
  {
    if |xs| == 0 then []
    else
      var rest := Absent(xs[1..], pool);
      assert xs == [xs[0]] + xs[1..];
      if xs[0] in pool then rest else [xs[0]] + rest
  }

  /** The first name of a non-empty list is reported, unless it is in pool, before the rest's. */
  lemma AbsentFirst<T(!new)>(xs: seq<T>, pool: seq<T>)
    requires |xs| > 0
    ensures Absent(xs, pool) == (if xs[0] in pool then [] else [xs[0]]) + Absent(xs[1..], pool)
  {
  }

  /**
   * The absent names of a concatenation are those of each part, one after the other: the
   * comprehension reports names in the order they were given.
   */
  lemma {:induction false} AbsentAppend<T(!new)>(xs: seq<T>, ys: seq<T>, pool: seq<T>)
    ensures Absent(xs + ys, pool) == Absent(xs, pool) + Absent(ys, pool)
  {
    if |xs| > 0 {
      var zs := xs + ys;
      assert zs[0] == xs[0] && zs[1..] == xs[1..] + ys;
      var head := if xs[0] in pool then [] else [xs[0]];
      var a, b := Absent(xs[1..], pool), Absent(ys, pool);
      AbsentFirst(zs, pool);
      AbsentFirst(xs, pool);
      AbsentAppend(xs[1..], ys, pool);
      assert Absent(zs, pool) == head + (a + b);
      assert head + (a + b) == (head + a) + b;
    } else {
      assert xs + ys == ys;
    }
  }

  /** The elements of s satisfying f, in order. */
  function Filter<T(!new)>(s: seq<T>, f: T -> bool): (r: seq<T>)
    ensures |r| <= |s|
    ensures forall x :: x in r <==> x in s && f(x)
    ensures forall i :: 0 <= i < |r| ==> f(r[i])
  {
    if |s| == 0 then []
    else
      var rest := Filter(s[..|s| - 1], f);
      assert s == s[..|s| - 1] + [s[|s| - 1]];
      if f(s[|s| - 1]) then rest + [s[|s| - 1]] else rest
  }

  /** Filtering keeps a sequence free of duplicates. */
  lemma {:induction false} FilterNoDuplicates<T(!new)>(s: seq<T>, f: T -> bool)
    requires NoDuplicates(s)
    ensures NoDuplicates(Filter(s, f))
  {
    if |s| > 0 {
      var p := s[..|s| - 1];
      assert NoDuplicates(p);
      FilterNoDuplicates(p, f);
      assert s[|s| - 1] !in p;
    }
  }

  /**
   * The distinct elements of s in order of first appearance, like pandas' Series.unique().
   */
  function Distinct<T(==,!new)>(s: seq<T>): (d: seq<T>)
    ensures NoDuplicates(d)
    ensures forall x :: x in d <==> x in s
    ensures forall i, j :: 0 <= i < j < |d| ==> IndexOf(s, d[i]) < IndexOf(s, d[j])
  {
    if |s| == 0 then []
    else
      var p := s[..|s| - 1];
      var z := s[|s| - 1];
      var d := Distinct(p);
      assert s == p + [z];
      forall y | y in p
        ensures IndexOf(s, y) == IndexOf(p, y)
      {
        IndexOfAppend(p, z, y);
      }
      if z in d then d
      else
        assert IndexOf(s, z) == |p|;
        d + [z]
  }

  /** Filtering keeps any strict increase of a tag along the sequence. */
  lemma {:induction false} FilterKeepsIncreasing<T(!new)>(s: seq<T>, f: T -> bool, tag: T -> int)
    requires forall i, j :: 0 <= i < j < |s| ==> tag(s[i]) < tag(s[j])
    ensures forall i, j :: 0 <= i < j < |Filter(s, f)| ==> tag(Filter(s, f)[i]) < tag(Filter(s, f)[j])
  {
    if |s| > 0 {
      var p := s[..|s| - 1];
      var z := s[|s| - 1];
      FilterKeepsIncreasing(p, f, tag);
      forall y | y in Filter(p, f)
        ensures tag(y) < tag(z)
      {
        var k :| 0 <= k < |p| && p[k] == y;
        assert s[k] == y;
      }
    }
  }
}

=== FILE: sorting.dfy ===
/**
 * A stable sort on sequences by a two-level integer key, the shape of both sorts in the
 * pipeline: Python's `sorted(..., reverse=True)` over period labels and pandas'
 * `sort_values` over the grouped rows.
 */
module Sorting {
  import opened Seqs

  /** A sort key compared lexicographically: `major` first, then `minor`. */
  datatype Rank = Rank(major: int, minor: int)

  predicate RankLe(a: Rank, b: Rank) {
    a.major < b.major || (a.major == b.major && a.minor <= b.minor)
  }

  predicate RankLt(a: Rank, b: Rank) {
    !RankLe(b, a)
  }

  /** Keys never decrease along s. */
  ghost predicate SortedBy<T>(s: seq<T>, key: T -> Rank) {
    forall i, j :: 0 <= i < j < |s| ==> RankLe(key(s[i]), key(s[j]))
  }

  /** Among elements with equal keys, tags strictly increase along s. */
  ghost predicate TagOrdered<T>(s: seq<T>, key: T -> Rank, tag: T -> int) {
    forall i, j :: 0 <= i < j < |s| && key(s[i]) == key(s[j]) ==> tag(s[i]) < tag(s[j])
  }

  /** Puts x before the first element of s whose key is strictly greater, so after all equal keys. */
  function Insert<T>(x: T, s: seq<T>, key: T -> Rank): (r: seq<T>)
    ensures multiset(r) == multiset(s) + multiset{x}
    ensures |r| == |s| + 1
  {
    if |s| == 0 then [x]
    else if RankLt(key(x), key(s[0])) then [x] + s
    else
      assert s == [s[0]] + s[1..];
      [s[0]] + Insert(x, s[1..], key)
  }

  lemma {:induction false} InsertSorted<T>(x: T, s: seq<T>, key: T -> Rank)
    requires SortedBy(s, key)
    ensures SortedBy(Insert(x, s, key), key)
  {
    if |s| > 0 && !RankLt(key(x), key(s[0])) {
      var t := s[1..];
      InsertSorted(x, t, key);
      var r := Insert(x, t, key);
      forall y | y in r
        ensures RankLe(key(s[0]), key(y))
      {
        assert y in multiset(r);
        if y != x {
          assert y in t;
        }
      }
    }
  }

  /** Inserting an element after all equal keys keeps equal-key elements in tag order. */
  lemma {:induction false} InsertTagOrdered<T>(x: T, s: seq<T>, key: T -> Rank, tag: T -> int)
    requires SortedBy(s, key) && TagOrdered(s, key, tag)
    requires forall i :: 0 <= i < |s| && key(s[i]) == key(x) ==> tag(s[i]) < tag(x)
    ensures TagOrdered(Insert(x, s, key), key, tag)
  {
    if |s| > 0 && !RankLt(key(x), key(s[0])) {
      var t := s[1..];
      InsertTagOrdered(x, t, key, tag);
      var r := Insert(x, t, key);
      forall y | y in r && key(y) == key(s[0])
        ensures tag(s[0]) < tag(y)
      {
        assert y in multiset(r);
        if y != x {
          var k :| 0 <= k < |t| && t[k] == y;
          assert s[k + 1] == y;
        }
      }
    }
  }

  lemma {:induction false} InsertNoDuplicates<T>(x: T, s: seq<T>, key: T -> Rank)
    requires NoDuplicates(s) && x !in s
    ensures NoDuplicates(Insert(x, s, key))
  {
    if |s| > 0 && !RankLt(key(x), key(s[0])) {
      var t := s[1..];
      InsertNoDuplicates(x, t, key);
      var r := Insert(x, t, key);
      if s[0] in r {
        assert s[0] in multiset(r);
      }
    }
  }

  /** Insertion sort: a permutation of s with keys in non-decreasing order. */
  function SortBy<T>(s: seq<T>, key: T -> Rank): (r: seq<T>)
    ensures multiset(r) == multiset(s)
    ensures |r| == |s|
    ensures SortedBy(r, key)
  {
    if |s| == 0 then []
    else
      var p := s[..|s| - 1];
      assert s == p + [s[|s| - 1]];
      InsertSorted(s[|s| - 1], SortBy(p, key), key);
      Insert(s[|s| - 1], SortBy(p, key), key)
  }

  /** The sort is stable: equal-key elements keep any strict order they had. */
  lemma {:induction false} SortByTagOrdered<T>(s: seq<T>, key: T -> Rank, tag: T -> int)
    requires TagOrdered(s, key, tag)
    ensures TagOrdered(SortBy(s, key), key, tag)
  {
    if |s| > 0 {
      var p := s[..|s| - 1];
      var x := s[|s| - 1];
      var q := SortBy(p, key);
      SortByTagOrdered(p, key, tag);
      forall i | 0 <= i < |q| && key(q[i]) == key(x)
        ensures tag(q[i]) < tag(x)
      {
        assert q[i] in multiset(p);
        var k :| 0 <= k < |p| && p[k] == q[i];
        assert s[k] == q[i];
      }
      InsertTagOrdered(x, q, key, tag);
    }
  }

  /** Sorting a sequence without duplicates gives one without duplicates. */
  lemma {:induction false} SortByNoDuplicates<T>(s: seq<T>, key: T -> Rank)
    requires NoDuplicates(s)
    ensures NoDuplicates(SortBy(s, key))
  {
    if |s| > 0 {
      var p := s[..|s| - 1];
      var x := s[|s| - 1];
      var q := SortBy(p, key);
      SortByNoDuplicates(p, key);
      assert x !in multiset(p) by {
        forall k | 0 <= k < |p|
          ensures p[k] != x
        {
          assert s[k] == p[k];
        }
      }
      InsertNoDuplicates(x, q, key);
    }
  }
}

=== FILE: text.dfy ===
/**
 * The string operations behind the delivery-period sort key: Python's `str.split()` (first word
 * only), `str.isdigit()` and `int()` on a digit string, and their inverse `str()` on naturals.
 */
module Text {
  import opened Outcomes

  /** The characters Python's `str.split()` without argument treats as separators. */
  predicate IsSpace(c: char) {
    || c == ' '
    || '\t' <= c <= '\r'
    || '\U{001C}' <= c <= '\U{001F}'
    || c == '\U{0085}' || c == '\U{00A0}' || c == '\U{1680}'
    || '\U{2000}' <= c <= '\U{200A}'
    || c == '\U{2028}' || c == '\U{2029}' || c == '\U{202F}' || c == '\U{205F}' || c == '\U{3000}'
  }

  /** Every character of s is a separator (this includes the empty string). */
  predicate AllSpace(s: string) {
    forall k :: 0 <= k < |s| ==> IsSpace(s[k])
  }

  /** Number of separators that open s. */
  function LeadingSpaces(s: string): (n: nat)
    ensures n <= |s|
    ensures forall k :: 0 <= k < n ==> IsSpace(s[k])
    ensures n < |s| ==> !IsSpace(s[n])
  {
    if |s| == 0 || !IsSpace(s[0]) then 0 else 1 + LeadingSpaces(s[1..])
  }

  /** Length of the run of non-separators that opens s. */
  function WordLength(s: string): (n: nat)
    ensures n <= |s|
    ensures forall k :: 0 <= k < n ==> !IsSpace(s[k])
    ensures n < |s| ==> IsSpace(s[n])
  {
    if |s| == 0 || IsSpace(s[0]) then 0 else 1 + WordLength(s[1..])
  }

  /**
   * `s.split()[0]`: the first maximal run of non-separators, or None where Python raises
   * IndexError because s has no word at all.
   */
  function FirstWord(s: string): (w: Option<string>)
    ensures w.None? <==> AllSpace(s)
    ensures w.Some? ==> IsWord(w.value)
  {
    var i := LeadingSpaces(s);
    if i == |s| then None else Some(s[i..i + WordLength(s[i..])])
  }

  /** A word without separators. */
  predicate IsWord(w: string) {
    |w| > 0 && forall k :: 0 <= k < |w| ==> !IsSpace(w[k])
  }

  /** Separators, then a word, then nothing or a separator: that word is the first word. */
  lemma FirstWordOf(sp: string, word: string, rest: string)
    requires AllSpace(sp) && IsWord(word)
    requires |rest| == 0 || IsSpace(rest[0])
    ensures FirstWord(sp + word + rest) == Some(word)
  {
    var s := sp + word + rest;
    var i := LeadingSpaces(s);
    assert s[|sp|] == word[0];
    assert forall k :: 0 <= k < |sp| ==> s[k] == sp[k];
    assert i == |sp|;
    var t := s[i..];
    assert t == word + rest;
    var n := WordLength(t);
    assert |word| < |t| ==> t[|word|] == rest[0];
    assert forall k :: 0 <= k < |word| ==> t[k] == word[k];
    assert n == |word|;
    assert s[i..i + n] == word;
  }

  /** Every text that is not all separators has the shape FirstWordOf speaks about. */
  lemma FirstWordSplit(s: string) returns (sp: string, word: string, rest: string)
    requires !AllSpace(s)
    ensures s == sp + word + rest
    ensures AllSpace(sp) && IsWord(word) && (|rest| == 0 || IsSpace(rest[0]))
  {
    var i := LeadingSpaces(s);
    assert i < |s|;
    var n := WordLength(s[i..]);
    assert s[i..][0] == s[i];
    sp, word, rest := s[..i], s[i..i + n], s[i + n..];
    assert forall k :: 0 <= k < n ==> word[k] == s[i..][k];
    assert s == sp + word + rest;
    assert |rest| > 0 ==> rest[0] == s[i..][n];
  }

  predicate IsDigit(c: char) {
    '0' <= c <= '9'
  }

  /** Python's `str.isdigit()` on ASCII text: non-empty and only digits. */
  predicate IsDigits(s: string) {
    |s| > 0 && forall k :: 0 <= k < |s| ==> IsDigit(s[k])
  }

  /** Python's `int(s)` for a string of decimal digits. */
  function DecimalValue(s: string): (n: nat)
    requires forall k :: 0 <= k < |s| ==> IsDigit(s[k])
  {
    if |s| == 0 then 0
    else
      assert IsDigit(s[|s| - 1]);
      10 * DecimalValue(s[..|s| - 1]) + (s[|s| - 1] as int - '0' as int)
  }

  /** Python's `str(n)` for a natural: its decimal digits without leading zeros. */
  function Decimal(n: nat): (s: string)
    ensures IsDigits(s)
    ensures s[0] == '0' ==> n == 0
  {
    if n < 10 then [('0' as int + n) as char]
    else Decimal(n / 10) + [('0' as int + n % 10) as char]
  }

  /** `int(str(n)) == n`. */
  lemma {:induction false} DecimalRoundTrip(n: nat)
    ensures DecimalValue(Decimal(n)) == n
  {
    if n >= 10 {
      var s := Decimal(n);
      DecimalRoundTrip(n / 10);
      assert s[..|s| - 1] == Decimal(n / 10);
    }
  }

  /** pat occurs in s starting at position i. */
  predicate OccursAt(s: string, pat: string, i: int) {
    0 <= i && i + |pat| <= |s| && s[i..i + |pat|] == pat
  }

  /** Python's `pat in s` on strings: a left-to-right search for pat. */
  function Contains(s: string, pat: string): (b: bool)
    ensures b <==> exists i :: OccursAt(s, pat, i)
  {
    if |pat| > |s| then false
    else if s[..|pat|] == pat then
      assert OccursAt(s, pat, 0);
      true
    else
      var b := Contains(s[1..], pat);
      assert !OccursAt(s, pat, 0);
      assert b ==> exists i :: OccursAt(s, pat, i) by {
        if b {
          var i :| OccursAt(s[1..], pat, i);
          assert OccursAt(s, pat, i + 1);
        }
      }
      assert (exists i :: OccursAt(s, pat, i)) ==> b by {
        if i :| OccursAt(s, pat, i) {
          assert i != 0;
          assert OccursAt(s[1..], pat, i - 1);
        }
      }
      b
  }
}
